=== FILE: README.md ===
# CTE registry of ActiveRecordExtended, in Dafny

This project models the part of ActiveRecordExtended that handles Common
Table Expressions. That part is `relation.with(name: subquery, ...)`,
`relation.with.recursive(...)`, the way `relation.merge(other)` carries CTEs
across, the hoisting of CTEs defined inside a CTE's own subquery, and the
single `WITH [RECURSIVE] n1 AS (...), n2 AS (...)` prefix that `to_sql` puts
in front of the statement.

- `sequences.dfy` (`Sequences`): uniqueness, plus `Dedup`, an independent
  filter-based definition of "distinct elements in order of first appearance".
- `registry.dfy` (`CteRegistry`): the data model. A `Query` is its compiled
  SQL plus a `Registry`. A `Registry` is an ordered list of `Cte(name, body)`
  entries plus one registry-wide `recursive` flag.
  - `Put`, `AttachAll` (`with`), `MarkRecursive` (`with.recursive`) and
    `Merge` (`merge`) are the operations.
  - A name written twice keeps its first position and takes its last body.
  - A registry denotes two things: its name order, which is the `Dedup` of
    every name written, and for each name the `LastWrite` body.
- `flatten.dfy` (`Flattening`): `Flatten` hoists nested registries in front
  of the entry that owns them.
  - `Linearize` is the reference definition: every definition of the tree,
    children first.
  - Flattening is proved to be "write the linearization into an empty
    registry".
- `tokens.dfy`, `render.dfy` (`Tokens`, `Rendering`): the statement as a
  token sequence. Compiled SQL of the base query and of CTE bodies is opaque
  and appears only as `Word` tokens, so keywords come only from the renderer.
  - `Parse` reads a rendered statement back.
  - The renderer is proved lossless on flat registries that have a CTE or
    are not recursive, hence on every `to_sql` output (`ToSqlSpec`).
- `relation.dfy` (`Relation`): the query-level surface (`With`,
  `WithRecursive`, `MergeQuery`, `ToSql`), and the WITH/CTE examples restated
  for arbitrary names and arbitrary plain queries.

The model follows the RSpec examples cited below. Those examples fix the
results of attaching distinct names, chaining `with`, merging into a plain
query, hoisting one nested CTE, and `with.recursive`. They say nothing about
what happens when a name is written twice or when nested registries carry
flags. For those cases the model adopts the following rules as assumptions:

- When the same name is written twice, by `with`, `merge` or hoisting, the
  name keeps its first position and the later write wins on content.
- Hoisting merges in a body's registry only when that registry has entries.
  The statement is recursive when the query's own registry is recursive, or
  when some hoisted registry, at any depth, is.
- `merge` ORs in the argument's recursive flag even when the argument has no
  CTEs, so merging a CTE-less recursive query into one with CTEs makes its
  statement `WITH RECURSIVE`. Hoisting, by contrast, ignores the flag of a
  body without CTEs.

## Model

| member | source | states |
|---|---|---|
| `CteRegistry.PutSpec` | spec/sql_inspections/with_cte_sql_spec.rb:40-41 | attaching one name: the name order is kept, or the name is appended if new; the name reads the new body; every other name reads what it read before; no entry is invented; uniqueness is kept |
| `CteRegistry.PutNames` | spec/sql_inspections/with_cte_sql_spec.rb:40-41 | a new name goes to the end, an existing one keeps its position, and names stay unique |
| `CteRegistry.PutLookup` | spec/sql_inspections/with_cte_sql_spec.rb:40-41 | after attaching, the name reads the attached body and all other names are unaffected |
| `CteRegistry.PutElements` | spec/sql_inspections/with_cte_sql_spec.rb:40-41 | attaching creates no entry besides the one attached |
| `CteRegistry.PutAllElements` | spec/sql_inspections/with_cte_sql_spec.rb:48 | every entry after a multi-name attach was there before or was one of the arguments |
| `CteRegistry.Attach` | spec/sql_inspections/with_cte_sql_spec.rb:40-41 | the single-name step used by hoisting (equal to `with(n: q)`, see `AttachIsAttachAllOne`) makes `n` read `q`, leaves other names alone, appends `n` only if new, keeps the recursive flag and keeps names unique |
| `CteRegistry.PutAllNames` | spec/sql_inspections/with_cte_sql_spec.rb:48 | after writing several definitions, the name order is the de-duplicated concatenation of old and new names, and names are unique |
| `CteRegistry.PutAllLookup` | spec/sql_inspections/with_cte_sql_spec.rb:48 | after writing several definitions, each name reads its last write |
| `CteRegistry.PutAllAbsorb` | spec/sql_inspections/with_cte_sql_spec.rb:15-22 | merging an already-merged registry equals writing both sources directly |
| `CteRegistry.AttachIsAttachAllOne` | spec/sql_inspections/with_cte_sql_spec.rb:40-41 | `with(n: q)` with one definition builds the same registry as the single-name step `Attach` |
| `CteRegistry.AttachAllChained` | spec/sql_inspections/with_cte_sql_spec.rb:39-52 | `.with(d1).with(d2)` builds the same registry as `.with(d1 + d2)` |
| `CteRegistry.AttachAllDenotation` | spec/sql_inspections/with_cte_sql_spec.rb:48 | operation `AttachAll` (`with(...)` on a registry): keeps names unique, in first-attachment order, each with its last body; the recursive flag is unchanged |
| `CteRegistry.AttachAllFresh` | spec/sql_inspections/with_cte_sql_spec.rb:48 | attaching names that are all new appends the definitions in argument order |
| `CteRegistry.MergeDenotation` | spec/sql_inspections/with_cte_sql_spec.rb:15-22 | operation `Merge` (`merge` on registries): keeps the receiver's order and appends the new names; a name of the argument reads the argument's body, any other name reads the receiver's; recursive is the OR |
| `CteRegistry.MergeIntoEmpty` | spec/sql_inspections/with_cte_sql_spec.rb:16-17 | merging into a query without CTEs yields the argument's registry exactly |
| `CteRegistry.MergeEmpty` | spec/sql_inspections/with_cte_sql_spec.rb:15-22 | merging a registry without CTEs into any registry changes nothing; the examples only merge into a plain receiver, so this right-identity law is exercised by none of them |
| `CteRegistry.MergeAssociative` | spec/sql_inspections/with_cte_sql_spec.rb:15-22 | merge is associative on valid registries |
| `Flattening.FlattenIsLinearWrites` | spec/sql_inspections/with_cte_sql_spec.rb:24-36 | operation `Flatten`: flattening equals writing the children-first linearization into an empty registry; recursive if the top registry is, or any nested registry that has CTEs of its own is |
| `Flattening.HoistIsLinearWrites` | spec/sql_inspections/with_cte_sql_spec.rb:24-36 | hoisting the remaining entries onto an accumulated registry writes their linearization onto it |
| `Flattening.HoistedIsLinearWrites` | spec/sql_inspections/with_cte_sql_spec.rb:28-29 | merging in one body's CTEs writes their linearization onto the registry built so far; the body's own flag counts only when the body has CTEs to hoist |
| `Flattening.FlattenDenotation` | spec/sql_inspections/with_cte_sql_spec.rb:24-36 | the flattened registry is valid and flat; its names are the linearization's names in order of first appearance, each with its last body |
| `Flattening.FlattenIsFlat` | spec/sql_inspections/with_cte_sql_spec.rb:33-35 | no body in the flattened registry carries CTEs of its own, so no body renders a WITH of its own |
| `Flattening.LinearizeFlat` | spec/sql_inspections/with_cte_sql_spec.rb:33-35 | every definition in the linearization has a body without CTEs |
| `Flattening.LinearizeOfFlat` | spec/sql_inspections/with_cte_sql_spec.rb:30-33 | a list with no nested CTEs is its own linearization and has no nested recursive flag |
| `Flattening.FlattenOfFlat` | spec/sql_inspections/with_cte_sql_spec.rb:30-35 | a valid registry without nested CTEs is left unchanged by flattening |
| `Flattening.FlattenIdempotent` | spec/sql_inspections/with_cte_sql_spec.rb:24-36 | flattening twice is flattening once |
| `Flattening.FlattenWithoutCollisions` | spec/sql_inspections/with_cte_sql_spec.rb:24-36 | without name collisions the flattened entries are exactly the linearization |
| `Flattening.HoistPrecedence` | spec/sql_inspections/with_cte_sql_spec.rb:28-33 | a CTE defined inside entry `i`'s body is emitted strictly before entry `i` |
| `Flattening.LinearizePrecedence` | spec/sql_inspections/with_cte_sql_spec.rb:28-33 | in the linearization, a nested definition has a smaller index than its owner |
| `Rendering.RenderListCounts` | spec/sql_inspections/with_cte_sql_spec.rb:54-61 | a list of `k` definitions holds `k` AS, `k - 1` commas, and no WITH or RECURSIVE |
| `Rendering.RenderCounts` | spec/sql_inspections/with_cte_sql_spec.rb:54-61 | a statement holds one WITH exactly when there is a CTE, one AS per CTE, and RECURSIVE once right after WITH exactly when recursive |
| `Rendering.RenderParse` | spec/sql_inspections/with_cte_sql_spec.rb:6-12 | operation `Render`: reading a rendered flat registry back gives the registry and the base SQL: order, names, bodies and flag are all in the text |
| `Rendering.Parse` | spec/sql_inspections/with_cte_sql_spec.rb:6-12 | whatever is read back renders to the same tokens, and its registry is flat |
| `Relation.WithSpec` | spec/sql_inspections/with_cte_sql_spec.rb:8-13 | operation `With` (`q.with(...)`): the query's own SQL is kept; names stay unique, in order of first attachment, each with its last body; the recursive flag is unchanged |
| `Relation.WithRecursiveSpec` | spec/sql_inspections/with_cte_sql_spec.rb:70-75 | operation `WithRecursive` (`q.with.recursive(...)`): attaches like `with`, keeping names unique; sets the registry's recursive flag even when nothing is attached; once the query has a CTE its statement starts `WITH RECURSIVE` and holds RECURSIVE exactly once |
| `Relation.MergeQuerySpec` | spec/sql_inspections/with_cte_sql_spec.rb:86-93 | operation `MergeQuery` (`q.merge(other)`): `q`'s SQL is kept; `q`'s CTEs keep their order and `other`'s new names follow; a name `other` defines reads `other`'s body; recursive if either query was |
| `Relation.ToSqlSpec` | spec/sql_inspections/with_cte_sql_spec.rb:8-13 | operation `ToSql` (`to_sql`): reading the statement back yields the query's flattened registry (none without CTEs) and its own SQL, so nothing is lost |
| `Relation.RecursiveBodyWithoutCtes` | spec/sql_inspections/with_cte_sql_spec.rb:24-36 | a CTE body marked recursive but without CTEs of its own hoists nothing, so the outer clause is plain `WITH n AS (s)` |
| `Relation.FlattenEmpty` | spec/sql_inspections/with_cte_sql_spec.rb:8-13 | the flattened registry is empty exactly when the query has no CTE |
| `Relation.ToSqlKeywordCounts` | spec/sql_inspections/with_cte_sql_spec.rb:54-61 | for any query, one WITH when it has a CTE and none otherwise, and one AS per distinct name of the whole CTE tree |
| `Relation.ToSqlRecursive` | spec/sql_inspections/with_cte_sql_spec.rb:77-84 | RECURSIVE appears once, right after WITH, exactly when the query has a CTE and its own registry, or some nested registry that has CTEs of its own, is recursive |
| `Relation.ChainedWithIsSingleWith` | spec/sql_inspections/with_cte_sql_spec.rb:39-52 | chained `with` calls give the same query and SQL as one call |
| `Relation.WithPlainDefinitions` | spec/sql_inspections/with_cte_sql_spec.rb:47-57 | distinct plain definitions on a plain query render `WITH n1 AS (...), ..., nk AS (...) <base>`, with one WITH and `k` AS |
| `Relation.FreshOnPlain` | spec/sql_inspections/with_cte_sql_spec.rb:47-48 | distinct names attached to a query without CTEs become its registry as given |
| `Relation.WithSingleCte` | spec/sql_inspections/with_cte_sql_spec.rb:8-13 | `with(n: q)` on a plain query renders `WITH n AS (q) <base>` |
| `Relation.MergeKeepsCte` | spec/sql_inspections/with_cte_sql_spec.rb:15-22 | merging a query with a CTE into a plain one keeps `WITH n AS (q)` |
| `Relation.NestedCteIsHoisted` | spec/sql_inspections/with_cte_sql_spec.rb:24-36 | `with(n2: q2.with(n1: q1))` renders the same SQL as `with(n1: q1, n2: q2)` |
| `Relation.HoistOneLevel` | spec/sql_inspections/with_cte_sql_spec.rb:28-33 | one CTE nested in another's body flattens to the two, inner first, with no nested registry left |
| `Relation.TwoCtesOneWith` | spec/sql_inspections/with_cte_sql_spec.rb:54-62 | two CTEs, chained or in one call, give the same SQL, with one WITH and two AS |
| `Relation.WithRecursiveSingleCte` | spec/sql_inspections/with_cte_sql_spec.rb:77-84 | `with.recursive(n: q)` renders `WITH RECURSIVE n AS (q) <base>` |
| `Relation.MergeKeepsRecursive` | spec/sql_inspections/with_cte_sql_spec.rb:86-93 | merging a recursive-CTE query into a plain one renders `WITH RECURSIVE n AS (q) <base>` |
| `Relation.RecursiveSurvivesMerge` | spec/sql_inspections/with_cte_sql_spec.rb:86-93 | whatever the receiver, merging in a recursive query with a CTE gives a statement that starts `WITH RECURSIVE` and holds RECURSIVE once |

## Left out

- Query compilation (Arel, `where`, `joins`, `select`, identifier quoting) is not modelled. A query's own SQL and every CTE body are opaque word sequences. The `.joins(...)` calls in the examples only extend the base SQL.
- The examples match text with regular expressions and count substrings (`scan(/AS/)`). The model counts keyword tokens instead. A literal `AS` inside a body, or inside a name, is a `Word` or `Ident` token and is not counted.
- Whitespace and string concatenation of the final SQL are not modelled; the statement is a token sequence.
- Executing the statement against a database is not modelled.
- Name validation, the `InvalidIdentifier` error raised when a CTE name is not a valid identifier, is left out. No example exercises it, and every name is taken as given.
- The duplicate-name rule (first position, last content) is an assumption of the model; no example exercises a collision.
- How nested recursive flags combine during hoisting is an assumption too: the flag of a hoisted (non-empty) nested registry is OR-ed into the statement's, and the flag of a body without CTEs is ignored. No example nests a recursive query.
- `MergeQuery` merges only the CTE registry: it keeps the receiver's SQL and drops the argument's. The program also carries the argument's conditions and joins; the model is exact for spec/sql_inspections/with_cte_sql_spec.rb:17 and :87-88, whose arguments are `User.with(...)` and `User.with.recursive(...)` with no conditions or joins.
- `User.with` called without arguments returns a chain object, and `.recursive(...)` is called on it. The model folds the two calls into `WithRecursive`.
- Flattening.HoistPrecedence: requires that no two definitions in the linearization share a name. When a definition of the owner's name is hoisted before the owner, the owner takes that earlier position, which may come before the CTEs hoisted from its own body, and the ordering need not hold.
- Relation.WithPlainDefinitions: requires distinct names and bodies without CTEs. The nested and duplicate cases are covered by `ToSqlKeywordCounts` and `NestedCteIsHoisted`.

=== FILE: flatten.dfy ===
/**
  Hoisting nested CTEs. A CTE body that carries CTEs of its own has them
  pulled up into the outer registry, immediately before the entry that
  referenced them; the body itself is kept without its registry. On a name
  collision the write that comes later in this order wins on content and the
  first one keeps its position, as for `merge`. The result is recursive when
  the outer registry or any hoisted one is.
 */
module Flattening {
  import opened Sequences
  import opened CteRegistry

  /** A body whose own CTEs have been hoisted (its registry is reset). */
  function Strip(q: Query): Query {
    q.(cte := Empty)
  }

  /** No entry's body carries CTEs of its own. */
  ghost predicate Flat(r: Registry) {
    forall i :: 0 <= i < |r.entries| ==> r.entries[i].body.cte == Empty
  }

  /** The registry that is rendered: every nested CTE hoisted into one list. */
  function Flatten(r: Registry): Registry
    decreases r, 1
  {
    Hoist(Registry([], r.recursive), r.entries)
  }

  /**
    Process the entries in order: when the entry's body carries CTEs, first
    merge in their flattened registry (its recursive flag included), then
    attach the entry itself with the stripped body. A body without CTEs
    contributes nothing but itself, whatever its recursive flag.
   */
  function Hoist(acc: Registry, es: seq<Cte>): Registry
    decreases es, 0
  {
    if es == [] then acc
    else Hoist(Attach(Hoisted(acc, es[0]), es[0].name, Strip(es[0].body)), es[1..])
  }

  /** The accumulator with the CTEs of `e`'s body (if it has any) merged in. */
  function Hoisted(acc: Registry, e: Cte): Registry
    decreases e, 2
  {
    if e.body.cte.entries == [] then acc else Merge(acc, Flatten(e.body.cte))
  }

  /**
    Reference definition: every definition of the tree, children before the
    entry that owns them, in order. Flattening is writing this list into an
    empty registry.
   */
  function Linearize(es: seq<Cte>): seq<Cte>
    decreases es
  {
    if es == [] then []
    else Linearize(es[0].body.cte.entries) + [Cte(es[0].name, Strip(es[0].body))] + Linearize(es[1..])
  }

  /**
    Some registry nested (at any depth) in the bodies of `es` is recursive
    and is hoisted, that is, has entries of its own.
   */
  function NestedRecursive(es: seq<Cte>): bool
    decreases es
  {
    if es == [] then false
    else
      var inner := es[0].body.cte;
      (inner.entries != [] && inner.recursive) || NestedRecursive(inner.entries) || NestedRecursive(es[1..])
  }

  lemma {:induction false} LinearizeAppend(a: seq<Cte>, b: seq<Cte>)
    ensures Linearize(a + b) == Linearize(a) + Linearize(b)
    decreases a
  {
    if a == [] {
      assert a + b == b;
    } else {
      assert (a + b)[0] == a[0];
      assert (a + b)[1..] == a[1..] + b;
      LinearizeAppend(a[1..], b);
    }
  }

  /** Every definition in the linearization has a body without CTEs. */
  lemma {:induction false} LinearizeFlat(es: seq<Cte>)
    ensures forall e :: e in Linearize(es) ==> e.body.cte == Empty
    decreases es
  {
    if es != [] {
      LinearizeFlat(es[0].body.cte.entries);
      LinearizeFlat(es[1..]);
    }
  }

  /** A flat list of entries is its own linearization. */
  lemma {:induction false} LinearizeOfFlat(es: seq<Cte>)
    requires forall i :: 0 <= i < |es| ==> es[i].body.cte == Empty
    ensures Linearize(es) == es
    ensures !NestedRecursive(es)
    decreases es
  {
    if es != [] {
      assert Strip(es[0].body) == es[0].body;
      LinearizeOfFlat(es[1..]);
      assert es == [es[0]] + es[1..];
    }
  }

  /** Flattening writes the linearization into an empty registry. */
  lemma {:induction false} FlattenIsLinearWrites(r: Registry)
    ensures Flatten(r) == Registry(PutAll([], Linearize(r.entries)), r.recursive || NestedRecursive(r.entries))
    decreases r, 2
  {
    HoistIsLinearWrites(Registry([], r.recursive), r.entries);
  }

  lemma {:induction false} HoistIsLinearWrites(acc: Registry, es: seq<Cte>)
    requires Valid(acc)
    ensures Hoist(acc, es) == Registry(PutAll(acc.entries, Linearize(es)), acc.recursive || NestedRecursive(es))
    decreases es, 1
  {
    if es != [] {
      var e := es[0];
      var li := Linearize(e.body.cte.entries);
      var d := Cte(e.name, Strip(e.body));
      var hoisted := Hoisted(acc, e);
      var acc1 := Attach(hoisted, e.name, Strip(e.body));
      HoistedIsLinearWrites(acc, e);
      assert acc1.entries == PutAll(acc.entries, li + [d]) by {
        assert (li + [d])[..|li + [d]| - 1] == li;
      }
      HoistIsLinearWrites(acc1, es[1..]);
      PutAllAppend(acc.entries, li + [d], Linearize(es[1..]));
    }
  }

  /**
    Merging in the CTEs of one body writes their linearization onto the
    accumulator; the flag picks up the body's own flag only when the body
    has CTEs to hoist.
   */
  lemma {:induction false} HoistedIsLinearWrites(acc: Registry, e: Cte)
    requires Valid(acc)
    ensures Valid(Hoisted(acc, e))
    ensures Hoisted(acc, e).entries == PutAll(acc.entries, Linearize(e.body.cte.entries))
    ensures Hoisted(acc, e).recursive ==
      (acc.recursive || (e.body.cte.entries != [] && e.body.cte.recursive) || NestedRecursive(e.body.cte.entries))
    decreases e, 3
  {
    var inner := e.body.cte;
    var li := Linearize(inner.entries);
    if inner.entries != [] {
      var nested := Flatten(inner);
      FlattenIsLinearWrites(inner);
      assert Names([]) == [];
      PutAllAbsorb(acc.entries, [], li);
      assert [] + li == li;
      MergeDenotation(acc, nested);
    }
  }

  /**
    The flattened registry is valid and flat; its names are the names of the
    linearization in order of first appearance, each with its last body.
   */
  lemma FlattenDenotation(r: Registry)
    ensures Valid(Flatten(r)) && Flat(Flatten(r))
    ensures Names(Flatten(r).entries) == Dedup(Names(Linearize(r.entries)))
    ensures forall n :: Lookup(Flatten(r).entries, n) == LastWrite(Linearize(r.entries), n)
    ensures Flatten(r).recursive <==> r.recursive || NestedRecursive(r.entries)
  {
    var l := Linearize(r.entries);
    var f := PutAll([], l);
    FlattenIsLinearWrites(r);
    assert Flatten(r).entries == f;
    assert Names([]) + Names(l) == Names(l);
    PutAllNames([], l);
    forall n
      ensures Lookup(f, n) == LastWrite(l, n)
    {
      PutAllLookup([], l, n);
      assert [] + l == l;
    }
    FlattenIsFlat(r);
  }

  /** No body in the flattened registry carries CTEs of its own. */
  lemma FlattenIsFlat(r: Registry)
    ensures Flat(Flatten(r))
  {
    var l := Linearize(r.entries);
    FlattenIsLinearWrites(r);
    LinearizeFlat(r.entries);
    PutAllElements([], l);
    forall i | 0 <= i < |Flatten(r).entries|
      ensures Flatten(r).entries[i].body.cte == Empty
    {
      assert Flatten(r).entries[i] in PutAll([], l);
    }
  }

  /** A valid, flat registry is left as it is. */
  lemma FlattenOfFlat(r: Registry)
    requires Valid(r) && Flat(r)
    ensures Flatten(r) == r
  {
    FlattenIsLinearWrites(r);
    LinearizeOfFlat(r.entries);
    AttachAllFresh(Empty, r.entries);
    assert Names([]) + Names(r.entries) == Names(r.entries);
    assert [] + r.entries == r.entries;
  }

  /** Flattening is idempotent. */
  lemma FlattenIdempotent(r: Registry)
    ensures Flatten(Flatten(r)) == Flatten(r)
  {
    FlattenDenotation(r);
    FlattenOfFlat(Flatten(r));
  }

  /** Without name collisions, the flattened entries are exactly the linearization. */
  lemma FlattenWithoutCollisions(r: Registry)
    requires Unique(Names(Linearize(r.entries)))
    ensures Flatten(r).entries == Linearize(r.entries)
  {
    var l := Linearize(r.entries);
    FlattenIsLinearWrites(r);
    AttachAllFresh(Empty, l);
    assert Names([]) + Names(l) == Names(l);
    assert [] + l == l;
  }

  /**
    Hoisting precedence: a CTE defined inside the body of entry `i` is
    rendered strictly before entry `i` itself (when no names collide).
   */
  lemma HoistPrecedence(r: Registry, i: int, n: string)
    requires Unique(Names(Linearize(r.entries)))
    requires 0 <= i < |r.entries|
    requires n in Names(Linearize(r.entries[i].body.cte.entries))
    ensures exists j, k :: (0 <= j < k < |Flatten(r).entries|
      && Flatten(r).entries[j].name == n
      && Flatten(r).entries[k].name == r.entries[i].name)
  {
    FlattenWithoutCollisions(r);
    var j, k := LinearizePrecedence(r.entries, i, n);
    assert Flatten(r).entries[j].name == n;
  }

  /** In the linearization, a nested definition comes before its owner. */
  lemma LinearizePrecedence(es: seq<Cte>, i: int, n: string) returns (j: int, k: int)
    requires 0 <= i < |es|
    requires n in Names(Linearize(es[i].body.cte.entries))
    ensures 0 <= j < k < |Linearize(es)|
    ensures Linearize(es)[j].name == n && Linearize(es)[k].name == es[i].name
  {
    var pre, inner, post := Linearize(es[..i]), Linearize(es[i].body.cte.entries), Linearize(es[i + 1..]);
    var d := Cte(es[i].name, Strip(es[i].body));
    var b := [es[i]] + es[i + 1..];
    assert es == es[..i] + b;
    LinearizeAppend(es[..i], b);
    assert b[0] == es[i] && b[1..] == es[i + 1..];
    assert Linearize(b) == inner + [d] + post;
    var l := Linearize(es);
    assert l == pre + (inner + [d] + post);
    var m :| 0 <= m < |inner| && Names(inner)[m] == n;
    j, k := |pre| + m, |pre| + |inner|;
    assert l[j] == inner[m];
    assert l[k] == d;
  }
}

=== FILE: registry.dfy ===
/**
  The per-query CTE registry behind `relation.with(...)`: an ordered list of
  named CTE definitions plus one registry-wide `recursive` flag. A CTE body
  is itself a query and may carry a registry of its own.

  Writing a name that is already present keeps the name where it first
  appeared and replaces its body (the last write wins on content, the first
  write wins on position). The registry therefore denotes two things:
  the order of first appearance of its names (`Dedup` of all names written)
  and, for each name, the body of the last write (`LastWrite`).
 */
module CteRegistry {
  import opened Wrappers
  import opened Sequences

  datatype Cte = Cte(name: string, body: Query)

  datatype Registry = Registry(entries: seq<Cte>, recursive: bool)

  /** A query: its opaque compiled SQL (without any WITH prefix) and its CTEs. */
  datatype Query = Query(sql: seq<string>, cte: Registry)

  /** The registry of a freshly built query. */
  const Empty := Registry([], false)

  function Names(es: seq<Cte>): seq<string> {
    seq(|es|, i requires 0 <= i < |es| => es[i].name)
  }

  /** Names are unique: the invariant every registry operation keeps. */
  ghost predicate Valid(r: Registry) {
    Unique(Names(r.entries))
  }

  /** The body stored under `n`, read front to back. */
  function Lookup(es: seq<Cte>, n: string): Option<Query> {
    if es == [] then None
    else if es[0].name == n then Some(es[0].body)
    else Lookup(es[1..], n)
  }

  /** The body of the last write of `n` in a sequence of writes. */
  function LastWrite(ds: seq<Cte>, n: string): Option<Query> {
    if ds == [] then None
    else if ds[|ds| - 1].name == n then Some(ds[|ds| - 1].body)
    else LastWrite(ds[..|ds| - 1], n)
  }

  /**
    Store `q` under `n`: an existing name keeps its position and takes the
    new body; a new name goes to the end. `PutSpec` states what it does.
   */
  function Put(es: seq<Cte>, n: string, q: Query): seq<Cte> {
    if es == [] then [Cte(n, q)]
    else if es[0].name == n then [Cte(n, q)] + es[1..]
    else [es[0]] + Put(es[1..], n, q)
  }

  /**
    After storing `q` under `n`: the name order is unchanged, or `n` is
    appended when new; `n` reads `q`; every other name reads what it read
    before; no entry is invented; uniqueness of names is kept.
   */
  lemma PutSpec(es: seq<Cte>, n: string, q: Query)
    ensures n in Names(es) ==> Names(Put(es, n, q)) == Names(es)
    ensures n !in Names(es) ==> Names(Put(es, n, q)) == Names(es) + [n]
    ensures Lookup(Put(es, n, q), n) == Some(q)
    ensures forall m :: m != n ==> Lookup(Put(es, n, q), m) == Lookup(es, m)
    ensures forall e :: e in Put(es, n, q) ==> e in es || e == Cte(n, q)
    ensures Unique(Names(es)) ==> Unique(Names(Put(es, n, q)))
  {
    PutNames(es, n, q);
    PutLookup(es, n, q);
    PutElements(es, n, q);
  }

  /** Storing keeps the name order, appending `n` when it is new, and keeps names unique. */
  lemma {:induction false} PutNames(es: seq<Cte>, n: string, q: Query)
    ensures n in Names(es) ==> Names(Put(es, n, q)) == Names(es)
    ensures n !in Names(es) ==> Names(Put(es, n, q)) == Names(es) + [n]
    ensures Unique(Names(es)) ==> Unique(Names(Put(es, n, q)))
  {
    if es != [] {
      var r := Put(es, n, q);
      assert Names(es) == [es[0].name] + Names(es[1..]);
      if es[0].name == n {
        assert Names(r) == [n] + Names(es[1..]);
      } else {
        var rest := Put(es[1..], n, q);
        PutNames(es[1..], n, q);
        assert Names(r) == [es[0].name] + Names(rest);
        UniqueCons(es[0].name, Names(es[1..]));
        UniqueCons(es[0].name, Names(rest));
      }
    }
  }

  /** After storing, `n` reads `q` and every other name reads what it read before. */
  lemma {:induction false} PutLookup(es: seq<Cte>, n: string, q: Query)
    ensures Lookup(Put(es, n, q), n) == Some(q)
    ensures forall m :: m != n ==> Lookup(Put(es, n, q), m) == Lookup(es, m)
  {
    if es != [] {
      var r := Put(es, n, q);
      if es[0].name == n {
        assert r[0] == Cte(n, q) && r[1..] == es[1..];
      } else {
        PutLookup(es[1..], n, q);
        assert r[0] == es[0] && r[1..] == Put(es[1..], n, q);
      }
    }
  }

  /** Storing invents no entry besides the one stored. */
  lemma {:induction false} PutElements(es: seq<Cte>, n: string, q: Query)
    ensures forall e :: e in Put(es, n, q) ==> e in es || e == Cte(n, q)
  {
    if es != [] && es[0].name != n {
      PutElements(es[1..], n, q);
      assert forall e :: e in es[1..] ==> e in es;
    }
  }

  /** Store every definition of `ds`, in order. */
  function PutAll(es: seq<Cte>, ds: seq<Cte>): seq<Cte> {
    if ds == [] then es
    else Put(PutAll(es, ds[..|ds| - 1]), ds[|ds| - 1].name, ds[|ds| - 1].body)
  }

  /** Every entry after a sequence of writes was there before or was written. */
  lemma {:induction false} PutAllElements(es: seq<Cte>, ds: seq<Cte>)
    ensures forall e :: e in PutAll(es, ds) ==> e in es || e in ds
    decreases |ds|
  {
    if ds != [] {
      var f, d := ds[..|ds| - 1], ds[|ds| - 1];
      PutAllElements(es, f);
      PutSpec(PutAll(es, f), d.name, d.body);
      assert forall e :: e in f ==> e in ds;
      assert d in ds;
    }
  }

  /** `with(n1: q1, n2: q2, ...)`: attach the definitions in argument order. */
  function AttachAll(r: Registry, defs: seq<Cte>): Registry {
    Registry(PutAll(r.entries, defs), r.recursive)
  }

  /** `with(n: q)` for a single name. */
  function Attach(r: Registry, n: string, q: Query): (r': Registry)
    ensures Lookup(r'.entries, n) == Some(q)
    ensures forall m :: m != n ==> Lookup(r'.entries, m) == Lookup(r.entries, m)
    ensures Names(r'.entries) == if n in Names(r.entries) then Names(r.entries) else Names(r.entries) + [n]
    ensures r'.recursive == r.recursive
    ensures Valid(r) ==> Valid(r')
  {
    PutSpec(r.entries, n, q);
    Registry(Put(r.entries, n, q), r.recursive)
  }

  /** `with.recursive(...)`: the whole clause becomes `WITH RECURSIVE`. */
  function MarkRecursive(r: Registry): Registry {
    r.(recursive := true)
  }

  /** `a.merge(b)`: carry `b`'s CTEs into `a`; recursive if either was. */
  function Merge(a: Registry, b: Registry): Registry {
    Registry(PutAll(a.entries, b.entries), a.recursive || b.recursive)
  }

  // ----- lemmas about the denotation -----

  lemma NamesAppend(a: seq<Cte>, b: seq<Cte>)
    ensures Names(a + b) == Names(a) + Names(b)
  {
  }

  lemma {:induction false} LookupAt(es: seq<Cte>, i: int)
    requires 0 <= i < |es|
    requires forall j :: 0 <= j < i ==> es[j].name != es[i].name
    ensures Lookup(es, es[i].name) == Some(es[i].body)
  {
    if i > 0 {
      assert es[1..][i - 1] == es[i];
      LookupAt(es[1..], i - 1);
    }
  }

  lemma {:induction false} LookupAbsent(es: seq<Cte>, n: string)
    requires n !in Names(es)
    ensures Lookup(es, n) == None
  {
    if es != [] {
      assert Names(es) == [es[0].name] + Names(es[1..]);
      LookupAbsent(es[1..], n);
    }
  }

  lemma {:induction false} LastWriteAt(ds: seq<Cte>, i: int)
    requires 0 <= i < |ds|
    requires forall j :: i < j < |ds| ==> ds[j].name != ds[i].name
    ensures LastWrite(ds, ds[i].name) == Some(ds[i].body)
    decreases |ds|
  {
    if i < |ds| - 1 {
      LastWriteAt(ds[..|ds| - 1], i);
    }
  }

  lemma {:induction false} LastWriteAbsent(ds: seq<Cte>, n: string)
    requires n !in Names(ds)
    ensures LastWrite(ds, n) == None
    decreases |ds|
  {
    if ds != [] {
      assert Names(ds) == Names(ds[..|ds| - 1]) + [ds[|ds| - 1].name];
      LastWriteAbsent(ds[..|ds| - 1], n);
    }
  }

  /** Reading a name of a valid registry finds its last (and only) write. */
  lemma LookupIsLastWrite(es: seq<Cte>, n: string)
    requires Unique(Names(es))
    ensures Lookup(es, n) == LastWrite(es, n)
  {
    if n in Names(es) {
      var i :| 0 <= i < |es| && Names(es)[i] == n;
      assert forall j :: 0 <= j < |es| ==> Names(es)[j] == es[j].name;
      LookupAt(es, i);
      LastWriteAt(es, i);
    } else {
      LookupAbsent(es, n);
      LastWriteAbsent(es, n);
    }
  }

  /** The last write into `x + y` is `y`'s when `y` writes the name at all. */
  lemma {:induction false} LastWriteAppend(x: seq<Cte>, y: seq<Cte>, n: string)
    ensures LastWrite(x + y, n) == if n in Names(y) then LastWrite(y, n) else LastWrite(x, n)
    decreases |y|
  {
    if y == [] {
      assert x + y == x;
    } else {
      var f := y[..|y| - 1];
      assert (x + y)[..|x + y| - 1] == x + f;
      assert Names(y) == Names(f) + [y[|y| - 1].name];
      LastWriteAppend(x, f, n);
    }
  }

  /** Two valid registries with the same name order and contents are equal. */
  lemma Extensionality(a: seq<Cte>, b: seq<Cte>)
    requires Unique(Names(a)) && Unique(Names(b))
    requires Names(a) == Names(b)
    requires forall n :: Lookup(a, n) == Lookup(b, n)
    ensures a == b
  {
    assert |a| == |Names(a)| == |b|;
    forall i | 0 <= i < |a|
      ensures a[i] == b[i]
    {
      assert Names(a)[i] == a[i].name && Names(b)[i] == b[i].name;
      forall j | 0 <= j < i
        ensures a[j].name != a[i].name && b[j].name != b[i].name
      {
        assert Names(a)[j] == a[j].name && Names(b)[j] == b[j].name;
      }
      LookupAt(a, i);
      LookupAt(b, i);
    }
  }

  /**
    The name order of a registry after a sequence of writes is the order of
    first appearance over the old names followed by the written ones.
   */
  lemma {:induction false} PutAllNames(es: seq<Cte>, ds: seq<Cte>)
    requires Unique(Names(es))
    ensures Names(PutAll(es, ds)) == Dedup(Names(es) + Names(ds))
    ensures Unique(Names(PutAll(es, ds)))
    decreases |ds|
  {
    if ds == [] {
      assert Names(es) + Names(ds) == Names(es);
      DedupOfUnique(Names(es));
    } else {
      var f, d := ds[..|ds| - 1], ds[|ds| - 1];
      assert ds == f + [d];
      PutAllNames(es, f);
      PutSpec(PutAll(es, f), d.name, d.body);
      NamesAppend(f, [d]);
      assert Names(es) + Names(ds) == (Names(es) + Names(f)) + [d.name];
      DedupSnoc(Names(es) + Names(f), d.name);
      DedupMembers(Names(es) + Names(f));
      DedupUnique(Names(es) + Names(ds));
    }
  }

  /** The body read back under any name is the one written last. */
  lemma {:induction false} PutAllLookup(es: seq<Cte>, ds: seq<Cte>, n: string)
    requires Unique(Names(es))
    ensures Lookup(PutAll(es, ds), n) == LastWrite(es + ds, n)
    decreases |ds|
  {
    if ds == [] {
      assert es + ds == es;
      LookupIsLastWrite(es, n);
    } else {
      var f := ds[..|ds| - 1];
      var d := ds[|ds| - 1];
      assert (es + ds)[..|es + ds| - 1] == es + f;
      assert (es + ds)[|es + ds| - 1] == d;
      PutAllLookup(es, f, n);
      PutSpec(PutAll(es, f), d.name, d.body);
    }
  }

  /** Writing `ds1` and then `ds2` is writing `ds1 + ds2`. */
  lemma {:induction false} PutAllAppend(es: seq<Cte>, ds1: seq<Cte>, ds2: seq<Cte>)
    ensures PutAll(PutAll(es, ds1), ds2) == PutAll(es, ds1 + ds2)
    decreases |ds2|
  {
    if ds2 == [] {
      assert ds1 + ds2 == ds1;
    } else {
      var f := ds2[..|ds2| - 1];
      assert (ds1 + ds2)[..|ds1 + ds2| - 1] == ds1 + f;
      assert (ds1 + ds2)[|ds1 + ds2| - 1] == ds2[|ds2| - 1];
      PutAllAppend(es, ds1, f);
    }
  }

  /**
    Writing the entries of a valid registry built from `b` and `c` is the
    same as writing `b` and then `c` directly.
   */
  lemma PutAllAbsorb(a: seq<Cte>, b: seq<Cte>, c: seq<Cte>)
    requires Unique(Names(a)) && Unique(Names(b))
    ensures PutAll(a, PutAll(b, c)) == PutAll(a, b + c)
  {
    var l := PutAll(b, c);
    PutAllNames(b, c);
    PutAllNames(a, l);
    PutAllNames(a, b + c);
    NamesAppend(b, c);
    DedupAbsorb(Names(a), Names(b) + Names(c));
    DedupMembers(Names(b) + Names(c));
    forall n
      ensures Lookup(PutAll(a, l), n) == Lookup(PutAll(a, b + c), n)
    {
      PutAllLookup(a, l, n);
      PutAllLookup(a, b + c, n);
      PutAllLookup(b, c, n);
      LookupIsLastWrite(l, n);
      LastWriteAppend(a, l, n);
      LastWriteAppend(a, b + c, n);
    }
    Extensionality(PutAll(a, l), PutAll(a, b + c));
  }

  // ----- properties of the registry operations -----

  /** The single-name step used by hoisting is `with` applied to one definition. */
  lemma AttachIsAttachAllOne(r: Registry, n: string, q: Query)
    ensures AttachAll(r, [Cte(n, q)]) == Attach(r, n, q)
  {
    var ds := [Cte(n, q)];
    assert ds[..|ds| - 1] == [] && ds[|ds| - 1] == Cte(n, q);
    assert PutAll(r.entries, ds) == Put(PutAll(r.entries, []), n, q);
  }

  /**
    Attaching several definitions in one call and attaching them across
    chained calls build the same registry.
   */
  lemma AttachAllChained(r: Registry, d1: seq<Cte>, d2: seq<Cte>)
    ensures AttachAll(AttachAll(r, d1), d2) == AttachAll(r, d1 + d2)
  {
    PutAllAppend(r.entries, d1, d2);
  }

  /** Attaching keeps names unique, in order of first attachment, with the last body attached. */
  lemma AttachAllDenotation(r: Registry, defs: seq<Cte>)
    requires Valid(r)
    ensures Valid(AttachAll(r, defs))
    ensures Names(AttachAll(r, defs).entries) == Dedup(Names(r.entries) + Names(defs))
    ensures forall n :: Lookup(AttachAll(r, defs).entries, n) == LastWrite(r.entries + defs, n)
    ensures AttachAll(r, defs).recursive == r.recursive
  {
    PutAllNames(r.entries, defs);
    forall n
      ensures Lookup(AttachAll(r, defs).entries, n) == LastWrite(r.entries + defs, n)
    {
      PutAllLookup(r.entries, defs, n);
    }
  }

  /** Distinct names attached to a registry that does not hold them land at the end, in order. */
  lemma AttachAllFresh(r: Registry, defs: seq<Cte>)
    requires Valid(r)
    requires Unique(Names(r.entries) + Names(defs))
    ensures AttachAll(r, defs).entries == r.entries + defs
  {
    PutAllNames(r.entries, defs);
    DedupOfUnique(Names(r.entries) + Names(defs));
    NamesAppend(r.entries, defs);
    forall n
      ensures Lookup(AttachAll(r, defs).entries, n) == Lookup(r.entries + defs, n)
    {
      PutAllLookup(r.entries, defs, n);
      LookupIsLastWrite(r.entries + defs, n);
    }
    Extensionality(AttachAll(r, defs).entries, r.entries + defs);
  }

  /**
    Merge keeps the receiver's names first, appends the other registry's new
    names in their order, takes the other registry's body on a shared name,
    and is recursive when either side is.
   */
  lemma MergeDenotation(a: Registry, b: Registry)
    requires Valid(a)
    ensures Valid(Merge(a, b))
    ensures Names(Merge(a, b).entries) == Dedup(Names(a.entries) + Names(b.entries))
    ensures forall n :: (Lookup(Merge(a, b).entries, n) ==
      if n in Names(b.entries) then LastWrite(b.entries, n) else Lookup(a.entries, n))
    ensures Merge(a, b).recursive <==> a.recursive || b.recursive
  {
    PutAllNames(a.entries, b.entries);
    forall n
      ensures Lookup(Merge(a, b).entries, n) ==
        (if n in Names(b.entries) then LastWrite(b.entries, n) else Lookup(a.entries, n))
    {
      PutAllLookup(a.entries, b.entries, n);
      LastWriteAppend(a.entries, b.entries, n);
      LookupIsLastWrite(a.entries, n);
    }
  }

  /** Merging into a query with no CTEs yields the other registry unchanged. */
  lemma MergeIntoEmpty(b: Registry)
    requires Valid(b)
    ensures Merge(Empty, b) == b
  {
    AttachAllFresh(Empty, b.entries);
    assert Names([]) + Names(b.entries) == Names(b.entries);
  }

  /** Merging a query with no CTEs changes nothing. */
  lemma MergeEmpty(a: Registry)
    ensures Merge(a, Empty) == a
  {
  }

  /** Merge is associative on valid registries (in particular when all names are distinct). */
  lemma MergeAssociative(a: Registry, b: Registry, c: Registry)
    requires Valid(a) && Valid(b)
    ensures Merge(Merge(a, b), c) == Merge(a, Merge(b, c))
  {
    PutAllAppend(a.entries, b.entries, c.entries);
    PutAllAbsorb(a.entries, b.entries, c.entries);
  }
}

=== FILE: relation.dfy ===
/**
  The query-level surface of the CTE registry: `relation.with(...)`,
  `relation.with.recursive(...)`, `relation.merge(other)` and `to_sql`.
  Everything a query is besides its CTEs is the opaque SQL it compiles to;
  the lemmas at the end restate the scenarios of the WITH/CTE examples over
  arbitrary names and arbitrary plain queries.
 */
module Relation {
  import opened Wrappers
  import opened Sequences
  import opened Tokens
  import opened CteRegistry
  import opened Flattening
  import opened Rendering

  /** A plain query (`User.all`, `User.where(...)`): its SQL and no CTEs. */
  function Plain(sql: seq<string>): Query {
    Query(sql, Empty)
  }

  /** `q.with(n1: q1, n2: q2, ...)`: attach the definitions, in argument order. */
  function With(q: Query, defs: seq<Cte>): Query {
    q.(cte := AttachAll(q.cte, defs))
  }

  /** `q.with.recursive(n1: q1, ...)`: attach and make the clause recursive. */
  function WithRecursive(q: Query, defs: seq<Cte>): Query {
    q.(cte := MarkRecursive(AttachAll(q.cte, defs)))
  }

  /** `q.merge(other)`: `other`'s CTEs (and recursive flag) are carried into `q`. */
  function MergeQuery(q: Query, other: Query): Query {
    q.(cte := Merge(q.cte, other.cte))
  }

  /** `q.to_sql`: hoist every nested CTE, then put one WITH clause in front. */
  function ToSql(q: Query): seq<Token> {
    Render(Flatten(q.cte), q.sql)
  }

  // ----- the operations, stated on whole queries -----

  /**
    `with(...)` leaves the query's own SQL alone; on a valid registry the
    names stay unique, in order of first attachment, each with its last body,
    and the recursive flag is unchanged.
   */
  lemma WithSpec(q: Query, defs: seq<Cte>)
    requires Valid(q.cte)
    ensures With(q, defs).sql == q.sql
    ensures Valid(With(q, defs).cte)
    ensures Names(With(q, defs).cte.entries) == Dedup(Names(q.cte.entries) + Names(defs))
    ensures forall n :: Lookup(With(q, defs).cte.entries, n) == LastWrite(q.cte.entries + defs, n)
    ensures With(q, defs).cte.recursive == q.cte.recursive
  {
    AttachAllDenotation(q.cte, defs);
  }

  /**
    `with.recursive(...)` attaches like `with(...)` and sets the registry's
    recursive flag, even when nothing is attached yet: once the query has a
    CTE its statement starts with `WITH RECURSIVE` and holds RECURSIVE
    exactly once.
   */
  lemma WithRecursiveSpec(q: Query, defs: seq<Cte>)
    requires Valid(q.cte)
    ensures WithRecursive(q, defs).sql == q.sql
    ensures Valid(WithRecursive(q, defs).cte)
    ensures WithRecursive(q, defs).cte.recursive
    ensures Names(WithRecursive(q, defs).cte.entries) == Dedup(Names(q.cte.entries) + Names(defs))
    ensures forall n :: Lookup(WithRecursive(q, defs).cte.entries, n) == LastWrite(q.cte.entries + defs, n)
    ensures q.cte.entries + defs != [] ==>
      |ToSql(WithRecursive(q, defs))| > 1 && ToSql(WithRecursive(q, defs))[..2] == [WITH, RECURSIVE]
    ensures q.cte.entries + defs != [] ==> Count(RECURSIVE, ToSql(WithRecursive(q, defs))) == 1
  {
    var w := WithRecursive(q, defs);
    AttachAllDenotation(q.cte, defs);
    if q.cte.entries + defs != [] {
      var n := (q.cte.entries + defs)[0].name;
      assert Names(q.cte.entries + defs)[0] == n;
      NamesAppend(q.cte.entries, defs);
      DedupMembers(Names(q.cte.entries) + Names(defs));
      assert w.cte.entries != [] by {
        assert n in Names(w.cte.entries);
      }
      ToSqlRecursive(w);
    }
  }

  /**
    `q.merge(other)` keeps `q`'s own SQL; `q`'s CTEs keep their order and
    `other`'s new names follow; a name `other` defines reads `other`'s body,
    any other name reads `q`'s; the clause is recursive if either was.
   */
  lemma MergeQuerySpec(q: Query, other: Query)
    requires Valid(q.cte)
    ensures MergeQuery(q, other).sql == q.sql
    ensures Valid(MergeQuery(q, other).cte)
    ensures Names(MergeQuery(q, other).cte.entries) == Dedup(Names(q.cte.entries) + Names(other.cte.entries))
    ensures forall n :: (Lookup(MergeQuery(q, other).cte.entries, n) ==
      if n in Names(other.cte.entries) then LastWrite(other.cte.entries, n) else Lookup(q.cte.entries, n))
    ensures MergeQuery(q, other).cte.recursive <==> q.cte.recursive || other.cte.recursive
  {
    MergeDenotation(q.cte, other.cte);
  }

  /**
    `to_sql` loses nothing: reading the statement back yields the query's
    flattened registry (none when it has no CTE) and its own SQL.
   */
  lemma ToSqlSpec(q: Query)
    ensures Parse(ToSql(q)) == Some((if q.cte.entries == [] then Empty else Flatten(q.cte), q.sql))
  {
    var f := Flatten(q.cte);
    FlattenEmpty(q.cte);
    FlattenDenotation(q.cte);
    if q.cte.entries == [] {
      assert Render(f, q.sql) == Render(Empty, q.sql);
      RenderParse(Empty, q.sql);
    } else {
      RenderParse(f, q.sql);
    }
  }

  // ----- general properties of to_sql -----

  /** A registry's flattening is empty exactly when the registry is. */
  lemma FlattenEmpty(r: Registry)
    ensures Flatten(r).entries == [] <==> r.entries == []
  {
    FlattenDenotation(r);
    var l := Linearize(r.entries);
    DedupMembers(Names(l));
    if r.entries != [] {
      var e := r.entries[0];
      assert l == Linearize(e.body.cte.entries) + [Cte(e.name, Strip(e.body))] + Linearize(r.entries[1..]);
      var k := |Linearize(e.body.cte.entries)|;
      assert l[k] == Cte(e.name, Strip(e.body));
      assert Names(l)[k] == e.name;
      assert e.name in Names(Flatten(r).entries);
    }
  }

  /**
    However the CTEs were attached, chained, merged or nested, the statement
    has exactly one WITH when the query has any CTE and none otherwise, and
    one AS for every distinct CTE name of the whole tree.
   */
  lemma ToSqlKeywordCounts(q: Query)
    ensures Count(WITH, ToSql(q)) == if q.cte.entries == [] then 0 else 1
    ensures Count(AS, ToSql(q)) == |Dedup(Names(Linearize(q.cte.entries)))|
  {
    FlattenEmpty(q.cte);
    FlattenDenotation(q.cte);
    RenderCounts(Flatten(q.cte), q.sql);
  }

  /**
    RECURSIVE appears once, right after WITH, exactly when the query has a
    CTE and its registry or some nested one was marked recursive.
   */
  lemma ToSqlRecursive(q: Query)
    ensures Count(RECURSIVE, ToSql(q)) ==
      if q.cte.entries != [] && (q.cte.recursive || NestedRecursive(q.cte.entries)) then 1 else 0
    ensures q.cte.entries != [] ==> |ToSql(q)| > 1 && ToSql(q)[0] == WITH
    ensures q.cte.entries != [] ==> |ToSql(q)| > 1 && (ToSql(q)[1] == RECURSIVE <==> q.cte.recursive || NestedRecursive(q.cte.entries))
  {
    FlattenEmpty(q.cte);
    FlattenDenotation(q.cte);
    RenderCounts(Flatten(q.cte), q.sql);
  }

  /** Chained `with` calls build the same query, hence the same SQL, as one call. */
  lemma ChainedWithIsSingleWith(q: Query, d1: seq<Cte>, d2: seq<Cte>)
    ensures With(With(q, d1), d2) == With(q, d1 + d2)
    ensures ToSql(With(With(q, d1), d2)) == ToSql(With(q, d1 + d2))
  {
    AttachAllChained(q.cte, d1, d2);
  }

  /**
    Attaching plain queries under distinct names to a query without CTEs
    renders `WITH n1 AS (sql1), ..., nk AS (sqlk)` in attachment order,
    followed by the query's own SQL.
   */
  lemma {:induction false} WithPlainDefinitions(base: Query, defs: seq<Cte>)
    requires base.cte == Empty
    requires defs != []
    requires Unique(Names(defs))
    requires forall i :: 0 <= i < |defs| ==> defs[i].body.cte == Empty
    ensures ToSql(With(base, defs)) == [WITH] + RenderList(defs) + Words(base.sql)
    ensures Count(WITH, ToSql(With(base, defs))) == 1
    ensures Count(AS, ToSql(With(base, defs))) == |defs|
  {
    var r := Registry(defs, false);
    FreshOnPlain(base, defs);
    FlattenOfFlat(r);
    assert ToSql(With(base, defs)) == Render(r, base.sql);
    assert [WITH] + [] == [WITH];
    RenderCounts(r, base.sql);
  }

  /** Distinct names attached to a query without CTEs become its registry as given. */
  lemma FreshOnPlain(base: Query, defs: seq<Cte>)
    requires base.cte == Empty
    requires Unique(Names(defs))
    ensures With(base, defs).cte == Registry(defs, false)
  {
    assert Names(Empty.entries) + Names(defs) == Names(defs);
    AttachAllFresh(Empty, defs);
    assert Empty.entries + defs == defs;
  }

  // ----- the WITH/CTE examples -----

  /** `User.with(personal_id_one: User.where(...))` renders `WITH personal_id_one AS (...) <base>`. */
  lemma WithSingleCte(base: Query, n: string, q: Query)
    requires base.cte == Empty && q.cte == Empty
    ensures ToSql(With(base, [Cte(n, q)])) ==
      [WITH, Ident(n), AS, LParen] + Words(q.sql) + [RParen] + Words(base.sql)
  {
    WithPlainDefinitions(base, [Cte(n, q)]);
  }

  /** Merging a query that carries a CTE into one that has none keeps the CTE. */
  lemma MergeKeepsCte(base: Query, other: Query, n: string, q: Query)
    requires base.cte == Empty && other.cte == Empty && q.cte == Empty
    ensures ToSql(MergeQuery(base, With(other, [Cte(n, q)]))) ==
      [WITH, Ident(n), AS, LParen] + Words(q.sql) + [RParen] + Words(base.sql)
  {
    var w := With(other, [Cte(n, q)]);
    assert Names(Empty.entries) + Names([Cte(n, q)]) == [n];
    AttachAllFresh(Empty, [Cte(n, q)]);
    MergeIntoEmpty(w.cte);
    assert MergeQuery(base, w) == With(base, [Cte(n, q)]);
    WithSingleCte(base, n, q);
  }

  /**
    Nested CTEs are piped into the parent: attaching `n2: q2.with(n1: q1)`
    renders exactly as attaching `n1: q1, n2: q2` in one call, so `n1` is
    defined first and `n2`'s body carries no WITH of its own.
   */
  lemma NestedCteIsHoisted(base: Query, n1: string, q1: Query, n2: string, q2: Query)
    requires base.cte == Empty && q1.cte == Empty && q2.cte == Empty
    requires n1 != n2
    ensures ToSql(With(base, [Cte(n2, With(q2, [Cte(n1, q1)]))])) == ToSql(With(base, [Cte(n1, q1), Cte(n2, q2)]))
  {
    var inner := [Cte(n1, q1)];
    FreshOnPlain(q2, inner);
    var sub := With(q2, inner);
    assert sub == q2.(cte := Registry(inner, false));
    var outer := [Cte(n2, sub)];
    FreshOnPlain(base, outer);
    HoistOneLevel(n1, q1, n2, q2);
    var flat := [Cte(n1, q1), Cte(n2, q2)];
    assert Names(flat) == [n1, n2];
    FreshOnPlain(base, flat);
    FlattenOfFlat(Registry(flat, false));
  }

  /** One CTE nested in the body of another flattens to the two in order. */
  lemma HoistOneLevel(n1: string, q1: Query, n2: string, q2: Query)
    requires q1.cte == Empty && q2.cte == Empty
    requires n1 != n2
    ensures Flatten(Registry([Cte(n2, q2.(cte := Registry([Cte(n1, q1)], false)))], false))
      == Registry([Cte(n1, q1), Cte(n2, q2)], false)
  {
    var inner := [Cte(n1, q1)];
    var sub := q2.(cte := Registry(inner, false));
    var outer := [Cte(n2, sub)];
    var r := Registry(outer, false);
    var flat := [Cte(n1, q1), Cte(n2, q2)];
    assert Linearize(inner) == flat[..1] by {
      assert inner[1..] == [];
      assert Strip(q1) == q1;
    }
    assert Linearize(outer) == flat by {
      assert outer[1..] == [];
      assert Strip(sub) == q2;
    }
    assert !NestedRecursive(outer) by {
      LinearizeOfFlat(inner);
      assert outer[0].body.cte == Registry(inner, false);
      assert outer[1..] == [];
    }
    FlattenIsLinearWrites(r);
    FlattenWithoutCollisions(r);
  }

  /**
    Two CTEs attached in one call, or across two chained calls, render the
    same statement with exactly one WITH and exactly two AS.
   */
  lemma TwoCtesOneWith(base: Query, n1: string, q1: Query, n2: string, q2: Query)
    requires base.cte == Empty && q1.cte == Empty && q2.cte == Empty
    requires n1 != n2
    ensures ToSql(With(With(base, [Cte(n1, q1)]), [Cte(n2, q2)])) == ToSql(With(base, [Cte(n1, q1), Cte(n2, q2)]))
    ensures Count(WITH, ToSql(With(base, [Cte(n1, q1), Cte(n2, q2)]))) == 1
    ensures Count(AS, ToSql(With(base, [Cte(n1, q1), Cte(n2, q2)]))) == 2
  {
    ChainedWithIsSingleWith(base, [Cte(n1, q1)], [Cte(n2, q2)]);
    assert [Cte(n1, q1)] + [Cte(n2, q2)] == [Cte(n1, q1), Cte(n2, q2)];
    WithPlainDefinitions(base, [Cte(n1, q1), Cte(n2, q2)]);
  }

  /** `User.with.recursive(personal_id_one: ...)` renders `WITH RECURSIVE personal_id_one AS (...) <base>`. */
  lemma WithRecursiveSingleCte(base: Query, n: string, q: Query)
    requires base.cte == Empty && q.cte == Empty
    ensures ToSql(WithRecursive(base, [Cte(n, q)])) ==
      [WITH, RECURSIVE, Ident(n), AS, LParen] + Words(q.sql) + [RParen] + Words(base.sql)
  {
    var defs := [Cte(n, q)];
    assert Names(Empty.entries) + Names(defs) == [n];
    AttachAllFresh(Empty, defs);
    var r := WithRecursive(base, defs).cte;
    assert r == Registry(defs, true);
    FlattenOfFlat(r);
  }

  /**
    A CTE body that was marked recursive but has no CTEs of its own hoists
    nothing, so the outer clause stays plain `WITH`.
   */
  lemma RecursiveBodyWithoutCtes(base: seq<string>, n: string, s: seq<string>)
    ensures ToSql(With(Plain(base), [Cte(n, WithRecursive(Plain(s), []))])) ==
      [WITH, Ident(n), AS, LParen] + Words(s) + [RParen] + Words(base)
  {
    var body := WithRecursive(Plain(s), []);
    assert body == Query(s, Registry([], true));
    var outer := [Cte(n, body)];
    assert Names(Empty.entries) + Names(outer) == [n];
    AttachAllFresh(Empty, outer);
    var r := With(Plain(base), outer).cte;
    assert r == Registry(outer, false);
    assert Linearize(outer) == [Cte(n, Plain(s))] by {
      assert outer[1..] == [];
    }
    assert !NestedRecursive(outer) by {
      assert outer[1..] == [];
    }
    FlattenIsLinearWrites(r);
    assert PutAll([], [Cte(n, Plain(s))]) == [Cte(n, Plain(s))] by {
      assert [Cte(n, Plain(s))][..0] == [];
    }
    var flat := Registry([Cte(n, Plain(s))], false);
    assert Flatten(r) == flat;
    assert RenderList(flat.entries) == RenderCte(Cte(n, Plain(s)));
  }

  /** Merging a recursive-CTE query into a plain one keeps `WITH RECURSIVE`. */
  lemma MergeKeepsRecursive(base: Query, other: Query, n: string, q: Query)
    requires base.cte == Empty && other.cte == Empty && q.cte == Empty
    ensures ToSql(MergeQuery(base, WithRecursive(other, [Cte(n, q)]))) ==
      [WITH, RECURSIVE, Ident(n), AS, LParen] + Words(q.sql) + [RParen] + Words(base.sql)
  {
    var w := WithRecursive(other, [Cte(n, q)]);
    assert Names(Empty.entries) + Names([Cte(n, q)]) == [n];
    AttachAllFresh(Empty, [Cte(n, q)]);
    MergeIntoEmpty(w.cte);
    assert MergeQuery(base, w) == WithRecursive(base, [Cte(n, q)]);
    WithRecursiveSingleCte(base, n, q);
  }

  /**
    The recursive flag survives any merge: if the merged-in query has a CTE
    and is recursive, the merged statement starts with `WITH RECURSIVE`.
   */
  lemma RecursiveSurvivesMerge(q: Query, other: Query)
    requires Valid(q.cte)
    requires other.cte.entries != [] && other.cte.recursive
    ensures |ToSql(MergeQuery(q, other))| > 1 && ToSql(MergeQuery(q, other))[..2] == [WITH, RECURSIVE]
    ensures Count(RECURSIVE, ToSql(MergeQuery(q, other))) == 1
  {
    var m := MergeQuery(q, other);
    MergeDenotation(q.cte, other.cte);
    DedupMembers(Names(q.cte.entries) + Names(other.cte.entries));
    assert Names(other.cte.entries)[0] == other.cte.entries[0].name;
    assert m.cte.entries != [] by {
      assert other.cte.entries[0].name in Names(m.cte.entries);
    }
    ToSqlRecursive(m);
  }
}

=== FILE: render.dfy ===
/**
  The clause renderer: the only place a `WITH` keyword is produced. A
  registry with no entries renders the base SQL unchanged; otherwise the
  output is `WITH [RECURSIVE] n1 AS (sql1), n2 AS (sql2), ... <base sql>`.

  `Parse` reads such a token sequence back; it is the renderer's inverse on
  flattened registries that have a CTE or are not recursive, hence on every
  `to_sql` output, and is used to state that rendering loses nothing there
  (order, names, bodies and the recursive flag are all recoverable). A
  recursive registry without entries renders no keyword, so its flag is lost.
 */
module Rendering {
  import opened Wrappers
  import opened Tokens
  import opened CteRegistry
  import opened Flattening

  /** `name AS (sql)`; the body's own CTEs are expected to have been hoisted. */
  function RenderCte(e: Cte): seq<Token> {
    [Ident(e.name), AS, LParen] + Words(e.body.sql) + [RParen]
  }

  /** The definitions in order, separated by commas. */
  function RenderList(es: seq<Cte>): seq<Token> {
    if es == [] then []
    else if |es| == 1 then RenderCte(es[0])
    else RenderCte(es[0]) + [Comma] + RenderList(es[1..])
  }

  /** The final statement: one WITH clause (if any CTE) in front of the base SQL. */
  function Render(r: Registry, base: seq<string>): seq<Token> {
    if r.entries == [] then Words(base)
    else [WITH] + (if r.recursive then [RECURSIVE] else []) + RenderList(r.entries) + Words(base)
  }

  // ----- token counts -----

  lemma {:induction false} RenderListCounts(es: seq<Cte>)
    ensures Count(WITH, RenderList(es)) == 0
    ensures Count(RECURSIVE, RenderList(es)) == 0
    ensures Count(AS, RenderList(es)) == |es|
    ensures Count(Comma, RenderList(es)) == if es == [] then 0 else |es| - 1
  {
    if es != [] {
      RenderCteCount(WITH, es[0]);
      RenderCteCount(RECURSIVE, es[0]);
      RenderCteCount(AS, es[0]);
      RenderCteCount(Comma, es[0]);
      if |es| > 1 {
        RenderListCounts(es[1..]);
        RenderListCount(WITH, es);
        RenderListCount(RECURSIVE, es);
        RenderListCount(AS, es);
        RenderListCount(Comma, es);
        CountOne(WITH, Comma);
        CountOne(RECURSIVE, Comma);
        CountOne(AS, Comma);
        CountOne(Comma, Comma);
      }
    }
  }

  /** A single definition holds one AS and no WITH, RECURSIVE or comma. */
  lemma RenderCteCount(t: Token, e: Cte)
    requires t in {WITH, RECURSIVE, AS, Comma}
    ensures Count(t, RenderCte(e)) == if t == AS then 1 else 0
  {
    CountAppend(t, [Ident(e.name), AS, LParen] + Words(e.body.sql), [RParen]);
    CountAppend(t, [Ident(e.name), AS, LParen], Words(e.body.sql));
    CountWords(t, e.body.sql);
    assert [Ident(e.name), AS, LParen][1..] == [AS, LParen];
    assert [AS, LParen][1..] == [LParen];
    assert [LParen][1..] == [] && [RParen][1..] == [];
  }

  /** The count in a list of two or more definitions, split at the first comma. */
  lemma RenderListCount(t: Token, es: seq<Cte>)
    requires |es| > 1
    ensures Count(t, RenderList(es)) == Count(t, RenderCte(es[0])) + Count(t, [Comma]) + Count(t, RenderList(es[1..]))
  {
    CountAppend(t, RenderCte(es[0]) + [Comma], RenderList(es[1..]));
    CountAppend(t, RenderCte(es[0]), [Comma]);
  }

  /**
    However the registry was built, the statement holds at most one WITH
    (exactly one when there is a CTE), one AS per CTE, commas between the
    CTEs, and RECURSIVE once, right after WITH, exactly when the registry is
    recursive.
   */
  lemma RenderCounts(r: Registry, base: seq<string>)
    ensures Count(WITH, Render(r, base)) == if r.entries == [] then 0 else 1
    ensures Count(AS, Render(r, base)) == |r.entries|
    ensures Count(Comma, Render(r, base)) == if r.entries == [] then 0 else |r.entries| - 1
    ensures Count(RECURSIVE, Render(r, base)) == if r.entries != [] && r.recursive then 1 else 0
    ensures r.entries != [] ==> Render(r, base)[0] == WITH
    ensures r.entries != [] ==> (Render(r, base)[1] == RECURSIVE <==> r.recursive)
  {
    RenderListCounts(r.entries);
    RenderCount(WITH, r, base);
    RenderCount(AS, r, base);
    RenderCount(Comma, r, base);
    RenderCount(RECURSIVE, r, base);
    CountOne(WITH, WITH);
    CountOne(WITH, RECURSIVE);
    CountOne(AS, WITH);
    CountOne(AS, RECURSIVE);
    CountOne(Comma, WITH);
    CountOne(Comma, RECURSIVE);
    CountOne(RECURSIVE, WITH);
    CountOne(RECURSIVE, RECURSIVE);
    if r.entries != [] {
      assert RenderList(r.entries)[0] == Ident(r.entries[0].name);
    }
  }

  /** The count of a non-word token in a statement, split by its parts. */
  lemma RenderCount(t: Token, r: Registry, base: seq<string>)
    requires !t.Word?
    ensures Count(t, Render(r, base)) ==
      if r.entries == [] then 0
      else Count(t, [WITH]) + (if r.recursive then Count(t, [RECURSIVE]) else 0) + Count(t, RenderList(r.entries))
  {
    CountWords(t, base);
    if r.entries != [] {
      var flag: seq<Token> := if r.recursive then [RECURSIVE] else [];
      CountAppend(t, [WITH] + flag + RenderList(r.entries), Words(base));
      CountAppend(t, [WITH] + flag, RenderList(r.entries));
      CountAppend(t, [WITH], flag);
    }
  }

  // ----- reading a statement back -----

  /** The longest prefix of plain SQL words, and what follows it. */
  function SpanWords(ts: seq<Token>): (p: (seq<string>, seq<Token>))
    ensures Words(p.0) + p.1 == ts
    ensures p.1 == [] || !p.1[0].Word?
  {
    if ts == [] || !ts[0].Word? then ([], ts)
    else
      var (ws, rest) := SpanWords(ts[1..]);
      assert Words([ts[0].text] + ws) == [ts[0]] + Words(ws);
      ([ts[0].text] + ws, rest)
  }

  /** A token sequence made only of SQL words. */
  function ParseWords(ts: seq<Token>): (o: Option<seq<string>>)
    ensures o.Some? ==> Words(o.value) == ts
  {
    var (ws, rest) := SpanWords(ts);
    if rest == [] then Some(ws) else None
  }

  /** One `name AS (sql)` definition and what follows it. */
  function ParseCte(ts: seq<Token>): (o: Option<(Cte, seq<Token>)>)
    ensures o.Some? ==> RenderCte(o.value.0) + o.value.1 == ts
    ensures o.Some? ==> o.value.0.body.cte == Empty
  {
    if |ts| < 3 || !ts[0].Ident? || ts[1] != AS || ts[2] != LParen then None
    else
      var p := SpanWords(ts[3..]);
      if p.1 == [] || p.1[0] != RParen then None
      else
        var e := Cte(ts[0].name, Query(p.0, Empty));
        assert ts == RenderCte(e) + p.1[1..] by {
          assert ts[..3] == [Ident(e.name), AS, LParen];
          assert ts == ts[..3] + ts[3..];
          assert p.1 == [RParen] + p.1[1..];
          RenderCteSplit(e, p.1[1..]);
        }
        Some((e, p.1[1..]))
  }

  /** A rendered definition followed by `tail`, grouped as the parser reads it. */
  lemma RenderCteSplit(e: Cte, tail: seq<Token>)
    ensures RenderCte(e) + tail == [Ident(e.name), AS, LParen] + (Words(e.body.sql) + ([RParen] + tail))
  {
  }

  /**
    Rendering a definition in front of a non-empty list puts a comma
    between them; followed by `tail`, that is the definition followed by
    a comma and the rendered list with its tail.
   */
  lemma RenderListCons(e: Cte, es: seq<Cte>, tail: seq<Token>)
    requires es != []
    ensures RenderList([e] + es) + tail == RenderCte(e) + ([Comma] + (RenderList(es) + tail))
  {
    assert ([e] + es)[1..] == es;
  }

  /**
    A non-empty comma-separated list of `name AS (sql)` definitions followed
    by the rest of the statement; every body read back carries no CTEs.
   */
  function ParseList(ts: seq<Token>): (o: Option<(seq<Cte>, seq<Token>)>)
    ensures o.Some? ==> o.value.0 != [] && RenderList(o.value.0) + o.value.1 == ts
    ensures o.Some? ==> forall e :: e in o.value.0 ==> e.body.cte == Empty
    decreases |ts|
  {
    match ParseCte(ts)
    case None => None
    case Some(p) =>
      var e, after := p.0, p.1;
      if after != [] && after[0] == Comma then
        assert |after| < |ts| by {
          assert |ts| == |RenderCte(e)| + |after|;
        }
        match ParseList(after[1..])
        case None => None
        case Some(q) =>
          var es := [e] + q.0;
          RenderListCons(e, q.0, q.1);
          assert after == [Comma] + after[1..];
          Some((es, q.1))
      else
        assert RenderList([e]) == RenderCte(e);
        Some(([e], after))
  }

  /** The statement of a non-empty registry, grouped as the parser reads it. */
  lemma RenderClause(es: seq<Cte>, rec: bool, ws: seq<string>)
    requires es != []
    ensures Render(Registry(es, rec), ws) == [WITH] + (if rec then [RECURSIVE] else []) + (RenderList(es) + Words(ws))
  {
  }

  /** What follows a leading `WITH`: an optional RECURSIVE, the definitions, the base SQL. */
  function ParseClause(ts: seq<Token>): (o: Option<(Registry, seq<string>)>)
    requires ts != [] && ts[0] == WITH
    ensures o.Some? ==> Render(o.value.0, o.value.1) == ts
    ensures o.Some? ==> Flat(o.value.0)
  {
    var rec := |ts| > 1 && ts[1] == RECURSIVE;
    var rest := if rec then ts[2..] else ts[1..];
    match ParseList(rest)
    case None => None
    case Some(p) =>
      match ParseWords(p.1)
      case None => None
      case Some(ws) =>
        RenderClause(p.0, rec, ws);
        ClauseHead(ts, rec);
        Some((Registry(p.0, rec), ws))
  }

  /** A statement that starts with WITH (and RECURSIVE, when `rec`), split after them. */
  lemma ClauseHead(ts: seq<Token>, rec: bool)
    requires ts != [] && ts[0] == WITH
    requires rec ==> |ts| > 1 && ts[1] == RECURSIVE
    ensures ts == [WITH] + (if rec then [RECURSIVE] else []) + (if rec then ts[2..] else ts[1..])
  {
    if rec {
      assert ts[..2] == [WITH, RECURSIVE];
      assert ts == ts[..2] + ts[2..];
    } else {
      assert ts == ts[..1] + ts[1..];
    }
  }

  /** Read a statement back into its (flattened) registry and base SQL. */
  function Parse(ts: seq<Token>): (o: Option<(Registry, seq<string>)>)
    ensures o.Some? ==> Render(o.value.0, o.value.1) == ts
    ensures o.Some? ==> Flat(o.value.0)
  {
    if ts != [] && ts[0] == WITH then ParseClause(ts)
    else
      match ParseWords(ts)
      case None => None
      case Some(ws) => Some((Empty, ws))
  }

  lemma {:induction false} SpanWordsOf(ws: seq<string>, rest: seq<Token>)
    requires rest == [] || !rest[0].Word?
    ensures SpanWords(Words(ws) + rest) == (ws, rest)
  {
    if ws != [] {
      assert Words(ws) + rest == [Word(ws[0])] + (Words(ws[1..]) + rest);
      SpanWordsOf(ws[1..], rest);
      assert ws == [ws[0]] + ws[1..];
    } else {
      assert Words(ws) + rest == rest;
    }
  }

  lemma ParseCteOf(e: Cte, after: seq<Token>)
    requires e.body.cte == Empty
    ensures ParseCte(RenderCte(e) + after) == Some((e, after))
  {
    var ts := RenderCte(e) + after;
    assert ts == [Ident(e.name), AS, LParen] + (Words(e.body.sql) + ([RParen] + after));
    assert ts[3..] == Words(e.body.sql) + ([RParen] + after);
    SpanWordsOf(e.body.sql, [RParen] + after);
    assert ([RParen] + after)[1..] == after;
  }

  lemma {:induction false} ParseListOf(es: seq<Cte>, tail: seq<Token>)
    requires es != []
    requires forall i :: 0 <= i < |es| ==> es[i].body.cte == Empty
    requires tail == [] || tail[0] != Comma
    ensures ParseList(RenderList(es) + tail) == Some((es, tail))
  {
    var e := es[0];
    var after := if |es| == 1 then tail else [Comma] + (RenderList(es[1..]) + tail);
    assert RenderList(es) + tail == RenderCte(e) + after by {
      if |es| > 1 {
        RenderListCons(e, es[1..], tail);
        assert es == [e] + es[1..];
      }
    }
    var ts := RenderList(es) + tail;
    ParseCteOf(e, after);
    assert ParseCte(ts) == Some((e, after));
    if |es| > 1 {
      ParseListOf(es[1..], tail);
      assert after[1..] == RenderList(es[1..]) + tail;
      assert ParseList(after[1..]) == Some((es[1..], tail));
      assert after != [] && after[0] == Comma;
      assert es == [e] + es[1..];
    } else {
      assert es == [e];
    }
  }

  lemma ParseWordsOf(ws: seq<string>)
    ensures ParseWords(Words(ws)) == Some(ws)
  {
    SpanWordsOf(ws, []);
    assert Words(ws) + [] == Words(ws);
  }

  /**
    Rendering loses nothing: a flattened registry (recursive only when it
    has entries, since an empty clause prints nothing) and its base SQL are
    read back exactly.
   */
  lemma RenderParse(r: Registry, base: seq<string>)
    requires Flat(r)
    requires r.recursive ==> r.entries != []
    ensures Parse(Render(r, base)) == Some((r, base))
  {
    var ts := Render(r, base);
    ParseWordsOf(base);
    if r.entries == [] {
      assert r == Empty;
      if base != [] {
        assert ts[0] == Word(base[0]);
      }
    } else {
      var flag: seq<Token> := if r.recursive then [RECURSIVE] else [];
      var rest := RenderList(r.entries) + Words(base);
      RenderClause(r.entries, r.recursive, base);
      assert ts == [WITH] + flag + rest;
      assert rest[0] == Ident(r.entries[0].name);
      assert (|ts| > 1 && ts[1] == RECURSIVE) == r.recursive;
      assert (if r.recursive then ts[2..] else ts[1..]) == rest;
      if base != [] {
        assert Words(base)[0] == Word(base[0]);
      }
      ParseListOf(r.entries, Words(base));
      assert ParseClause(ts) == Some((r, base));
    }
  }
}

=== FILE: sequences.dfy ===
/**
  Generic facts about sequences used by the registry: uniqueness of
  elements and an independent, filter-based definition of "the distinct
  elements in order of first appearance".
 */
module Sequences {

  /** No element occurs twice. */
  ghost predicate Unique<T>(s: seq<T>) {
    forall i, j :: 0 <= i < j < |s| ==> s[i] != s[j]
  }

  /** A sequence with a head is unique when its tail is and lacks the head. */
  lemma UniqueCons<T>(x: T, s: seq<T>)
    ensures Unique([x] + s) <==> x !in s && Unique(s)
  {
    var t := [x] + s;
    assert forall i :: 0 <= i < |s| ==> t[i + 1] == s[i];
    if Unique(t) {
      forall i | 0 <= i < |s|
        ensures s[i] != x
      {
        assert t[0] != t[i + 1];
      }
    }
  }

  /** `s` with every occurrence of `x` removed. */
  function Without<T(==,!new)>(s: seq<T>, x: T): (r: seq<T>)
    ensures |r| <= |s|
    ensures forall y :: y in r <==> y in s && y != x
  {
    if s == [] then []
    else if s[0] == x then Without(s[1..], x)
    else [s[0]] + Without(s[1..], x)
  }

  /**
    The distinct elements of `s`, each at the position of its first
    occurrence: keep the head, drop its later copies, repeat.
   */
  function Dedup<T(==,!new)>(s: seq<T>): (r: seq<T>)
    decreases |s|
  {
    if s == [] then [] else [s[0]] + Dedup(Without(s[1..], s[0]))
  }

  lemma {:induction false} WithoutAppend<T(!new)>(a: seq<T>, b: seq<T>, x: T)
    ensures Without(a + b, x) == Without(a, x) + Without(b, x)
  {
    if a == [] {
      assert a + b == b;
    } else {
      assert (a + b)[1..] == a[1..] + b;
      WithoutAppend(a[1..], b, x);
    }
  }

  lemma {:induction false} DedupMembers<T(!new)>(s: seq<T>)
    ensures forall y :: y in Dedup(s) <==> y in s
    decreases |s|
  {
    if s != [] {
      DedupMembers(Without(s[1..], s[0]));
      assert s == [s[0]] + s[1..];
    }
  }

  lemma {:induction false} DedupUnique<T(!new)>(s: seq<T>)
    ensures Unique(Dedup(s))
    decreases |s|
  {
    if s != [] {
      var t := Without(s[1..], s[0]);
      DedupUnique(t);
      DedupMembers(t);
      var d := Dedup(s);
      assert d == [s[0]] + Dedup(t);
      forall i, j | 0 <= i < j < |d|
        ensures d[i] != d[j]
      {
        if i == 0 {
          assert d[j] == Dedup(t)[j - 1];
          assert d[j] in t;
        } else {
          assert d[i] == Dedup(t)[i - 1] && d[j] == Dedup(t)[j - 1];
        }
      }
    }
  }

  /** A sequence without repetitions is its own deduplication. */
  lemma {:induction false} DedupOfUnique<T(!new)>(s: seq<T>)
    requires Unique(s)
    ensures Dedup(s) == s
    decreases |s|
  {
    if s != [] {
      var t := s[1..];
      assert s[0] !in t;
      WithoutAbsent(t, s[0]);
      assert Unique(t) by {
        forall i, j | 0 <= i < j < |t| ensures t[i] != t[j] {
          assert t[i] == s[i + 1] && t[j] == s[j + 1];
        }
      }
      DedupOfUnique(t);
      assert s == [s[0]] + t;
    }
  }

  lemma {:induction false} WithoutAbsent<T(!new)>(s: seq<T>, x: T)
    requires x !in s
    ensures Without(s, x) == s
  {
    if s != [] {
      assert s == [s[0]] + s[1..];
      WithoutAbsent(s[1..], x);
    }
  }

  /** Appending an element extends the deduplication only when it is new. */
  lemma {:induction false} DedupSnoc<T(!new)>(s: seq<T>, x: T)
    ensures Dedup(s + [x]) == if x in s then Dedup(s) else Dedup(s) + [x]
    decreases |s|
  {
    if s == [] {
      assert [] + [x] == [x];
    } else {
      var a := s[0];
      assert (s + [x])[0] == a;
      assert (s + [x])[1..] == s[1..] + [x];
      WithoutAppend(s[1..], [x], a);
      var t := Without(s[1..], a);
      if x == a {
        assert Without([x], a) == [];
        assert t + [] == t;
      } else {
        assert Without([x], a) == [x] by {
          assert [x][1..] == [];
        }
        DedupSnoc(t, x);
        assert s == [a] + s[1..];
        assert (x in t) == (x in s);
      }
    }
  }

  /** Deduplicating a suffix first does not change the overall deduplication. */
  lemma {:induction false} DedupAbsorb<T(!new)>(a: seq<T>, b: seq<T>)
    ensures Dedup(a + Dedup(b)) == Dedup(a + b)
    decreases |b|
  {
    if b == [] {
      assert Dedup(b) == [];
    } else {
      var front, x := b[..|b| - 1], b[|b| - 1];
      assert b == front + [x];
      assert a + b == (a + front) + [x];
      DedupSnoc(a + front, x);
      DedupSnoc(front, x);
      DedupAbsorb(a, front);
      DedupMembers(front);
      if x in front {
      } else {
        assert a + (Dedup(front) + [x]) == (a + Dedup(front)) + [x];
        DedupSnoc(a + Dedup(front), x);
      }
    }
  }
}

=== FILE: tokens.dfy ===
/**
  The lexical view of rendered SQL. Keywords, punctuation and CTE names are
  tokens of their own; the SQL that the query builder compiles for a base
  query or a CTE body is opaque and appears only as `Word` tokens, so it can
  never be mistaken for a `WITH`, `RECURSIVE` or `AS` keyword.
 */
module Tokens {

  datatype Token =
    | WITH
    | RECURSIVE
    | AS
    | Comma
    | LParen
    | RParen
    | Ident(name: string)
    | Word(text: string)

  /** Opaque compiled SQL, one token per word. */
  function Words(ws: seq<string>): seq<Token> {
    seq(|ws|, i requires 0 <= i < |ws| => Word(ws[i]))
  }

  /** Number of occurrences of `t` in `ts`. */
  function Count(t: Token, ts: seq<Token>): nat {
    if ts == [] then 0 else (if ts[0] == t then 1 else 0) + Count(t, ts[1..])
  }

  lemma {:induction false} CountAppend(t: Token, a: seq<Token>, b: seq<Token>)
    ensures Count(t, a + b) == Count(t, a) + Count(t, b)
  {
    if a == [] {
      assert a + b == b;
    } else {
      assert (a + b)[1..] == a[1..] + b;
      CountAppend(t, a[1..], b);
    }
  }

  /** Opaque SQL contributes no keyword or punctuation token. */
  lemma {:induction false} CountWords(t: Token, ws: seq<string>)
    requires !t.Word?
    ensures Count(t, Words(ws)) == 0
  {
    if ws != [] {
      assert Words(ws)[1..] == Words(ws[1..]);
      CountWords(t, ws[1..]);
    }
  }

  lemma CountOne(t: Token, x: Token)
    ensures Count(t, [x]) == if t == x then 1 else 0
  {
    assert [x][1..] == [];
  }
}

=== FILE: wrappers.dfy ===
/** Optional values used by lookups and parsing. */
module Wrappers {

  datatype Option<+T> = None | Some(value: T)
}
